=== FILE: README.md ===
# AppyToons2 drawing and animation core, in Dafny

A model of the four pieces of sequential logic in the AppyToons2 drawing
application, with proofs of their properties:

- **Drawing surface** (`DrawingCanvas`, canvas.dfy): the raster, the bounded
  undo history of snapshots (at most 20, oldest evicted first), stroke setup
  (compositing mode, colour and line width from the tool, canvas-local
  coordinates), the `draw` and `stopDrawing` guards, clear, undo and export.
  The raster is a type parameter `S`. A snapshot of the raster is the raster
  itself, and restoring a snapshot makes it the raster again. Painting a
  stroke is an injected function `render`.
- **Animation endpoint** (`AnimateRoute`, animate_route.dfy): request
  validation (400 on a missing drawing, 500 on a body that cannot be parsed),
  generation of three to five descriptors with staggered delays, and the
  total duration as a max-fold of end times. `Math.random()` is an injected
  sequence of reals in [0, 1), so all arithmetic is exact.
- **Playback driver** (`AnimationPreview`, animation_preview.dfy): descriptor
  `i` becomes a tween record on placeholder element `i mod n`, with the
  per-type property table and the bounce easing override. The player keeps
  `isPlaying` and a single timeline whose status is running, finished or
  killed. Plans are requested through a loading flag and an injected
  transport outcome.
- **UI store** (`Store`, store.dfy): the initial state and every action as a
  pure reducer, with a per-action write set and "every other field is
  unchanged" contracts.
- **Page wiring** (`App`, app.dfy): the surface is mounted only in draw
  mode, so a switch to animate mode discards it and a switch back mounts a
  fresh one. Pointer events and the toolbar's Undo, Clear and "generate"
  buttons reach the surface only while it is mounted. The page's
  `canvasData` is the payload it hands to the preview. Both findings below
  are stated here.

Shared types (tools, modes, descriptors, plans, `null`/`undefined`) are in
types.dfy (`Types`).

Behaviour of the code worth noting:

- `playAnimation` itself is not guarded against being called while playing:
  it kills the running timeline and starts a new one. Only the Play button is
  disabled while playing (`PressPlay`). Either way at most one timeline runs.
- Every tool draws a freehand stroke: circle, rectangle and line draw no
  shape geometry, and only the eraser differs (compositing and width).
- A `move` translation lies in [-100, 100): `Math.random()` never returns 1.
- `stopAnimation` resets element properties only when a timeline exists and
  the container is mounted.
- Clearing fills under the compositing mode the last stroke left, so a clear
  after an eraser stroke erases the whole surface rather than painting it
  white (`ClearAfterStroke`).

## Model

| member | source | states |
|---|---|---|
| DrawingCanvas.Push | components/DrawingCanvas.tsx:46-50 | After a push the newest entry is the snapshot just taken; the length stays within 20 when it started within 20; below 20 the entry is appended, at 20 exactly the oldest entry is dropped and the rest keep their order |
| DrawingCanvas.PushWindow | components/DrawingCanvas.tsx:46-50 | Pushing onto the last-20 window of a log gives the last-20 window of the log extended by the new snapshot |
| DrawingCanvas.PushAllWindow | components/DrawingCanvas.tsx:46-50 | For any series of pushes, the history equals the most recent 20 of all snapshots ever recorded, in order |
| DrawingCanvas.ClearThenSaves | components/DrawingCanvas.tsx:110-113 | After a clear and any number of saved strokes, the history is the last 20 of the cleared state followed by the saved snapshots, and its length is min(saves + 1, 20) |
| DrawingCanvas.SaveState | components/DrawingCanvas.tsx:40-51 | With a 2D context the raster is pushed onto the history; without one nothing changes; raster, stroke flag, path and style never change |
| DrawingCanvas.Mount | components/DrawingCanvas.tsx:25-38 | With a context the surface starts filled under the fresh context's source-over mode and holds exactly that one snapshot; otherwise the history is empty; no stroke is active and the style is the default |
| DrawingCanvas.StyleFor | components/DrawingCanvas.tsx:68-75 | The composite is destination-out exactly for the eraser; the eraser uses twice the stroke width and keeps the context's previous colour; every other tool uses the chosen colour and width |
| DrawingCanvas.EraserIgnoresColor | components/DrawingCanvas.tsx:68-70 | The eraser's stroke style is the same whatever colour is selected |
| DrawingCanvas.StartDrawing | components/DrawingCanvas.tsx:53-78 | Without a canvas nothing changes; otherwise a stroke becomes active; with a context the path starts at client minus bounding-box origin and the style is the tool's style; raster and history are untouched |
| DrawingCanvas.Draw | components/DrawingCanvas.tsx:80-95 | With no active stroke (or no context) nothing changes; otherwise the local point is appended to the path and the raster is the whole path stroked onto the previous raster; history, flag, style and host are untouched |
| DrawingCanvas.StopDrawing | components/DrawingCanvas.tsx:97-102 | With no active stroke nothing changes; otherwise the flag is cleared, raster, path, style and host are kept, and the history is the bounded push of the current raster with a context and unchanged without one |
| DrawingCanvas.Clear | components/DrawingCanvas.tsx:104-114 | With a context the raster is the fill composited under the context's current mode and the history is exactly that one snapshot; without one nothing changes |
| DrawingCanvas.ClearAfterStroke | components/DrawingCanvas.tsx:68-72 | Clearing after a completed stroke leaves one snapshot: the fill composited destination-out after an eraser stroke, source-over after any other tool |
| DrawingCanvas.Undo | components/DrawingCanvas.tsx:116-129 | With at most one entry nothing changes; otherwise the history loses exactly its newest entry and, with a context, the raster equals the new newest entry; without a context the pop still happens and the raster stays; flag, path, style and host are kept |
| DrawingCanvas.Export | components/DrawingCanvas.tsx:131-135 | Export yields nothing exactly when no canvas is attached, and otherwise the encoding of the current raster |
| DrawingCanvas.UndoFloor | components/DrawingCanvas.tsx:116-117 | Once one snapshot is left, any number of undos leaves the surface unchanged |
| DrawingCanvas.StrokeThenUndo | components/DrawingCanvas.tsx:97-128 | With a context, fewer than 20 snapshots and no stroke in progress (the raster showing the newest snapshot), a complete stroke (down, any moves, up) followed by one undo restores the raster and history from before the stroke |
| DrawingCanvas.DrawAllKeepsHistory | components/DrawingCanvas.tsx:80-95 | Mouse moves never touch the history, the stroke flag, the host or the style |
| DrawingCanvas.MountValid | components/DrawingCanvas.tsx:25-38 | A freshly mounted surface satisfies the invariant: history within 20, non-empty with a context, and the raster shows the newest snapshot when no stroke is active |
| DrawingCanvas.StepValid | components/DrawingCanvas.tsx:145-153 | Each mouse event, clear and undo preserves that invariant and the host |
| DrawingCanvas.RunValid | components/DrawingCanvas.tsx:145-153 | Any sequence of those events preserves the invariant |
| AnimateRoute.FloorIndex | app/api/animate/route.ts:47-53 | For a draw r in [0,1) and n > 0, floor(r*n) is a valid index below n |
| AnimateRoute.Pick | app/api/animate/route.ts:51-53 | Indexing the type and easing lists with floor(r*5) always yields a member of the list |
| AnimateRoute.Count | app/api/animate/route.ts:47 | The descriptor count floor(r*3)+3 lies in {3,4,5} |
| AnimateRoute.Duration | app/api/animate/route.ts:52 | Each duration r*2+1 lies in [1,3) |
| AnimateRoute.Descriptor | app/api/animate/route.ts:50-55 | Descriptor i has delay i*0.5, duration in [1,3) and an easing from the five easings |
| AnimateRoute.DescriptorEnd | app/api/animate/route.ts:50-55 | Descriptor i ends in [i/2+1, i/2+3) |
| AnimateRoute.GenerateAnimations | app/api/animate/route.ts:39-59 | The batch has Count(first draw) descriptors, three to five; descriptor i is built from draws 1+3i, 2+3i, 3+3i with delay i*0.5, duration in [1,3) and a listed easing |
| AnimateRoute.TotalDuration | app/api/animate/route.ts:61-66 | The total is at least 0 and at least every descriptor's (delay or 0) + duration, and is either 0 or equal to one of those end times (0 for an empty list) |
| AnimateRoute.TotalDurationExample | app/api/animate/route.ts:61-66 | End times 1.2, 2.5 and 2.5 give a total of 2.5 |
| AnimateRoute.GeneratedTotalBounds | app/api/animate/route.ts:47-66 | For a generated batch the total equals some descriptor's end time and lies in [2,5) |
| AnimateRoute.StaggeredTotal | app/api/animate/route.ts:61-66 | For three to five descriptors where descriptor i ends in [i/2+1, i/2+3), the total is one of the end times and lies in [2,5) |
| AnimateRoute.GeneratedEnds | app/api/animate/route.ts:44-57 | Every descriptor of a generated batch ends in [i/2+1, i/2+3) |
| AnimateRoute.Post | app/api/animate/route.ts:4-37 | A body whose parse or destructuring throws (unparsable, or `null`) gives 500 with the generic error; a missing or falsy drawing gives 400 with the validation error and no plan; otherwise 200 with success, the input drawing unchanged, as many generated descriptors as the count draw gives (three to five) and a total equal to the maximum end time, within [2,5) |
| AnimationPreview.Offset | components/AnimationPreview.tsx:73-76 | A move translation r*200-100 lies in [-100,100) |
| AnimationPreview.BuildTweens | components/AnimationPreview.tsx:59-97 | With an empty pool (where `index % 0` finds no element) no tween is scheduled; otherwise exactly one tween per descriptor |
| AnimationPreview.BuildTweensFit | components/AnimationPreview.tsx:63-96 | Every scheduled tween fits its descriptor: descriptor i on element i mod n, its duration kept, starting at delay or 0, its easing kept except bounce.out for bounce, and properties per type: move x,y in [-100,100), rotate 360, scale 1.5 and fade 0.3 with yoyo and one repeat, bounce y = -50 |
| AnimationPreview.BuildTweensShift | components/AnimationPreview.tsx:63-65 | Tween i > 0 of a batch is tween i - 1 of the rest of the batch, built from the draws the first descriptor leaves unread |
| AnimationPreview.MoveDraws | components/AnimationPreview.tsx:63-76 | The move tween for descriptor i reads the two random draws that follow those of the earlier move descriptors (x from the first, y from the second) |
| AnimationPreview.PlayAnimation | components/AnimationPreview.tsx:42-100 | Without a container or a plan nothing changes; otherwise isPlaying is set, any previous timeline is killed and disposed, and a new running timeline holds one tween per descriptor (for a non-empty pool), descriptor i on element i mod n with its duration, delay-or-0 position, easing override and per-type properties |
| AnimationPreview.NinePlaceholders | components/AnimationPreview.tsx:152-158 | On the nine placeholders a plan of at most nine descriptors (every generated plan) puts descriptor i on element i, so each descriptor animates its own element |
| AnimationPreview.StopAnimation | components/AnimationPreview.tsx:102-112 | isPlaying always ends false; a timeline is killed only if one exists, and elements are reset only then and only with the container present |
| AnimationPreview.Complete | components/AnimationPreview.tsx:53-55 | Completion of a running timeline clears isPlaying and marks it finished; a killed or absent timeline fires nothing |
| AnimationPreview.Unmount | components/AnimationPreview.tsx:114-120 | Unmounting kills the timeline if there is one and keeps its tweens, and changes nothing else: isPlaying, the disposed timelines and the reset count are kept, and without a timeline the player is unchanged |
| AnimationPreview.PressPlay | components/AnimationPreview.tsx:178-183 | The Play button does nothing while playing and otherwise runs playAnimation |
| AnimationPreview.PressStop | components/AnimationPreview.tsx:185-190 | The Stop button does nothing while not playing and otherwise runs stopAnimation; afterwards playback is never on |
| AnimationPreview.AtMostOneRunning | components/AnimationPreview.tsx:45-57 | Under the player invariant at most one timeline is running, and one is running exactly while isPlaying holds |
| AnimationPreview.PlayerStepOk | components/AnimationPreview.tsx:42-112 | Play, stop and completion each preserve the player invariant |
| AnimationPreview.PlayerRunOk | components/AnimationPreview.tsx:42-112 | Any sequence of play, stop and completion events preserves the player invariant |
| AnimationPreview.StopBeforePlay | components/AnimationPreview.tsx:102-112 | Stopping before anything was played changes nothing |
| AnimationPreview.SecondPlayIgnored | components/AnimationPreview.tsx:178-183 | A second Play press right after one that started playback leaves the player as it was |
| AnimationPreview.PlayAfterModeSwitch | components/AnimationPreview.tsx:42-43 | After any mode switch the store holds no plan, so playAnimation does nothing |
| AnimationPreview.Receive | components/AnimationPreview.tsx:24-33 | A network error or a non-2xx status is a failure; a 2xx response delivers its data, or undefined when the body has none |
| AnimationPreview.BeginGeneration | components/AnimationPreview.tsx:19-22 | A falsy canvas payload changes nothing; otherwise the loading flag is raised |
| AnimationPreview.PressGenerate | components/AnimationPreview.tsx:192-195 | While a request is in flight a press of the generate button changes nothing |
| AnimationPreview.SettleGeneration | components/AnimationPreview.tsx:30-39 | The loading flag ends false on success and failure; on success only the store's plan changes, on failure the store is unchanged and one alert is shown |
| AnimationPreview.GenerateAnimation | components/AnimationPreview.tsx:19-40 | A falsy canvas payload changes nothing; otherwise the loading flag ends false, the plan changes (and nothing else in the store) only on success, and exactly one alert is shown on failure and none on success |
| AnimationPreview.GenerateThroughRoute | components/AnimationPreview.tsx:19-40 | Requesting a plan from the endpoint with a truthy payload stores a plan for that same payload with three to five descriptors, lowers the loading flag and shows no alert |
| Store.Initial | lib/store.ts:35-43 | Initial state: pencil, #000000, width 5, draw mode, not drawing, no drawing data, null plan, canUndo and canRedo false |
| Store.Reduce | lib/store.ts:46-60 | Every field outside an action's write set is unchanged; setTool, setColor and setStrokeWidth write only their field; setMode sets the mode and empties the plan (null for draw, undefined for animate); setAnimationData writes only the plan; clearCanvas resets drawing data, plan, canUndo and canRedo |
| Store.ReduceIdempotent | lib/store.ts:46-60 | Applying any action twice equals applying it once |
| Store.DisjointCommute | lib/store.ts:46-60 | Two actions with disjoint write sets give the same state in either order |
| Store.ClearInitial | lib/store.ts:55-60 | clearCanvas on the initial state gives the initial state |
| Store.ModeSwitchDropsPlan | lib/store.ts:49 | From any state a mode switch leaves no truthy plan, and switching to animate mode leaves it undefined |
| Store.PlanOnlyFromSetAnimationData | lib/store.ts:46-60 | Without a setAnimationData action no plan can appear in a state that has none |
| App.Start | app/page.tsx:102-111 | The page starts in the store's initial state, in draw mode with a newly mounted surface and no canvas payload |
| App.Step | app/page.tsx:15-33 | A store action changes the store as the reducer does and leaves the surface mounted exactly in draw mode: kept while staying in draw mode, mounted afresh on entering it, gone in animate mode. On a mounted surface, pointer down, move and up/leave run startDrawing (with the store's tool, colour and width), draw and stopDrawing; Undo in draw mode with canUndo runs undo; Clear in draw mode runs clearCanvas and sets the payload to null; the generate button in animate mode with a mounted surface sets the payload to the export. Otherwise these events change nothing; an Undo press with canUndo false changes nothing; no other event changes the store or the payload |
| App.StepOk | app/page.tsx:102-122 | Every page event keeps the page invariant: the surface is mounted exactly in draw mode and then satisfies the surface invariant |
| App.RunOk | app/page.tsx:102-122 | Any series of page events keeps the page invariant |
| App.ModeRoundTripRemounts | app/page.tsx:102-122 | Switching to animate mode and back replaces whatever was drawn with a newly mounted surface |
| App.UndoNeverEnabled | lib/store.ts:42 | As written, from canUndo false and with only the actions the interface dispatches, canUndo stays false and every Undo press is ignored |
| App.UndoIgnoredAfterStroke | components/Toolbar.tsx:152 | As written, after one stroke on a fresh page the history holds two snapshots, yet pressing Undo leaves the stroke on the surface |
| App.NoPayloadEver | app/page.tsx:28-33 | As written, from a page without a canvas payload no series of events produces one, so the preview's generate button never starts a request |
| App.Publish | lib/store.ts:53 | The corrected wiring sets canUndo exactly when a mounted surface has an earlier snapshot and changes no other store field |
| App.Capture | app/page.tsx:28-33 | The corrected page exports the mounted surface as the payload on the switch into animate mode and changes nothing else |
| App.FixedStep | components/Toolbar.tsx:151-152 | With the corrected wiring, after every page event canUndo holds exactly when a mounted surface has at least two snapshots |
| App.FixedUndoWorks | components/Toolbar.tsx:151-152 | With the corrected wiring in draw mode, pressing Undo performs the surface's undo |
| App.FixedUndoAfterStroke | components/Toolbar.tsx:152 | With the corrected wiring, one stroke and one Undo press bring back the background |
| App.FixedPayloadOnEnter | components/AnimationPreview.tsx:141 | With the corrected page, entering animate mode from a surface with a context hands the preview the encoded drawing, and its generate button then starts a request |

## Left out

- Pixel work: filling, stroking, `getImageData`/`putImageData` and `toDataURL` are abstract (`S`, `fill` per compositing mode, `render`, `encode`); `lineCap`/`lineJoin` (always round) and the white `fillStyle` are not modelled.
- The mount effect re-runs when width or height changes, appending a further snapshot; the model mounts once.
- Shape tools: circle, rectangle and line are drawn as freehand strokes by the surface, so no shape geometry is modelled.
- The tweening library: a timeline is its tween records plus a status; interpolation, `clearProps` and `timeline.play()` are not modelled beyond a reset counter.
- Transport: `fetch`, JSON encoding and `NextResponse` are a `Transport` outcome and a `Response` record; a missing or falsy `drawingData` is `None`, and the only thrown error modelled is a body whose parse or destructuring throws (for example a `null` body).
- Randomness: draws are injected reals in [0,1); the uniform distribution of counts, types, durations and easings is not stated. Floating-point rounding of `Math.random()*k` is not modelled.
- AnimateRoute.GenerateAnimations: the unused `drawingData` argument of the source function is dropped, and the random stream must hold at least 16 draws.
- The console logging and the text of the alert.
- components/Toolbar.tsx, app/page.tsx and app/layout.tsx beyond which buttons are shown in which mode and what their handlers do: layout, styling and the motion transitions of the interface. The preview component's own mounting on entering animate mode is not combined with the page model; its player and loader are modelled separately.
- lib/types.ts has no behaviour; it shapes the datatypes in types.dfy.

## Findings

| source | as written | input that shows it | evidently intended | confidence | as-written member | corrected member |
|---|---|---|---|---|---|---|
| components/Toolbar.tsx:152 | The Undo button is disabled while `canUndo` is false; `canUndo` starts false (lib/store.ts:42) and nothing calls `setCanUndo`, so the surface's undo can never be reached from the interface | Mount the page, draw one stroke (mouse down, move, up), press Undo: the history holds two snapshots but the stroke stays | The surface publishes `canUndo` = "history has at least two entries" after every change, so Undo is enabled exactly when it can take effect | high (not executed) | App.UndoIgnoredAfterStroke | App.FixedUndoWorks |
| app/page.tsx:28-33 | The "generate" button is shown only in animate mode (components/Toolbar.tsx:172-181), but there the surface is unmounted (app/page.tsx:102-122), so `canvasRef.current` is null, nothing is exported, and `canvasData` stays null; the preview's generate button is disabled without it (components/AnimationPreview.tsx:141) and `generateAnimation` returns at once, so no plan can ever be requested | Draw a stroke, switch to animate mode, press "generate" in the toolbar: `canvasData` is still null and the preview's generate button stays disabled | The drawing is exported before the surface goes away, for example on the switch into animate mode, so the preview can request a plan for it | high (not executed) | App.NoPayloadEver | App.FixedPayloadOnEnter |

=== FILE: animate_route.dfy ===
/** The animation-plan endpoint: validates the request, draws a random batch
    of animation descriptors and derives the plan's total duration.

    `Math.random()` is replaced by an injected stream `rs` of reals in [0, 1).
    The endpoint reads `rs[0]` for the descriptor count and, for descriptor
    `i`, `rs[1 + 3*i]` for its type, `rs[2 + 3*i]` for its duration and
    `rs[3 + 3*i]` for its easing, in the order the source evaluates them. */
module AnimateRoute {
  import opened Types

  const AnimationTypes: seq<AnimationType> := [Move, Rotate, Scale, Fade, Bounce]

  const Easings: seq<string> := ["power1.inOut", "power2.inOut", "elastic.out", "back.out", "bounce.out"]

  /** Random draws needed for the largest batch: one for the count, three per descriptor. */
  const MaxDraws: nat := 1 + 3 * 5

  /** `Math.floor(r * n)` for a random draw is a valid index into a list of `n`. */
  lemma FloorIndex(r: real, n: nat)
    requires IsRandom(r) && n > 0
    ensures 0 <= (r * n as real).Floor < n
  {
    assert r * n as real < n as real by {
      assert (1.0 - r) * n as real > 0.0;
    }
  }

  /** `types[Math.floor(Math.random() * types.length)]` and its easing twin. */
  function Pick<T>(xs: seq<T>, r: real): (x: T)
    requires |xs| > 0 && IsRandom(r)
    ensures x in xs
  {
    FloorIndex(r, |xs|);
    xs[(r * |xs| as real).Floor]
  }

  /** `Math.floor(Math.random() * 3) + 3`. */
  function Count(r: real): (n: nat)
    requires IsRandom(r)
    ensures 3 <= n <= 5
  {
    FloorIndex(r, 3);
    (r * 3.0).Floor + 3
  }

  /** `Math.random() * 2 + 1`. */
  function Duration(r: real): (d: real)
    requires IsRandom(r)
    ensures 1.0 <= d < 3.0
  {
    r * 2.0 + 1.0
  }

  /** The descriptor built in iteration `i` of the generation loop. */
  function Descriptor(rs: seq<real>, i: nat): (a: AnimationConfig)
    requires RandomStream(rs) && 3 + 3 * i < |rs|
    ensures a.easing in Easings
    ensures 1.0 <= a.duration < 3.0
    ensures a.delay == Some(i as real * 0.5)
  {
    AnimationConfig(
      Duration(rs[2 + 3 * i]),
      Pick(AnimationTypes, rs[1 + 3 * i]),
      Pick(Easings, rs[3 + 3 * i]),
      Some(i as real * 0.5))
  }

  /** `generateAnimations`: a batch of three to five staggered descriptors. */
  method GenerateAnimations(rs: seq<real>) returns (anims: seq<AnimationConfig>)
    requires RandomStream(rs) && |rs| >= MaxDraws
    ensures |anims| == Count(rs[0]) && 3 <= |anims| <= 5
    ensures forall i :: 0 <= i < |anims| ==> anims[i] == Descriptor(rs, i)
    ensures forall i :: 0 <= i < |anims| ==>
      && anims[i].delay == Some(i as real * 0.5)
      && 1.0 <= anims[i].duration < 3.0
      && anims[i].easing in Easings
  {
    var n := Count(rs[0]);
    anims := [];
    var i := 0;
    while i < n
      invariant 0 <= i <= n
      invariant |anims| == i
      invariant forall j :: 0 <= j < i ==> anims[j] == Descriptor(rs, j)
    {
      anims := anims + [Descriptor(rs, i)];
      i := i + 1;
    }
  }

  function Max(a: real, b: real): real
  {
    if a >= b then a else b
  }

  /** `calculateTotalDuration`: a left fold of `max` over the descriptors'
      end times, starting from zero. */
  function TotalDuration(anims: seq<AnimationConfig>): (t: real)
    ensures t >= 0.0
    ensures forall i :: 0 <= i < |anims| ==> EndTime(anims[i]) <= t
    ensures t == 0.0 || exists i :: 0 <= i < |anims| && t == EndTime(anims[i])
    decreases |anims|
  {
    if anims == [] then 0.0
    else
      var prefix := anims[..|anims| - 1];
      var t := TotalDuration(prefix);
      assert forall i :: 0 <= i < |prefix| ==> anims[i] == prefix[i];
      Max(t, EndTime(anims[|anims| - 1]))
  }

  /** The worked example: end times 1.2, 2.5 and 2.5 give a total of 2.5. */
  lemma TotalDurationExample()
    ensures TotalDuration([
      AnimationConfig(1.2, Move, "power1.inOut", Some(0.0)),
      AnimationConfig(2.0, Rotate, "power2.inOut", Some(0.5)),
      AnimationConfig(1.5, Fade, "back.out", Some(1.0))]) == 2.5
  {
    var a := [
      AnimationConfig(1.2, Move, "power1.inOut", Some(0.0)),
      AnimationConfig(2.0, Rotate, "power2.inOut", Some(0.5)),
      AnimationConfig(1.5, Fade, "back.out", Some(1.0))];
    assert a[..2][..1] == a[..1];
    assert TotalDuration(a[..1]) == 1.2;
    assert TotalDuration(a[..2]) == 2.5;
  }

  /** Descriptor `i` starts at `i/2` seconds and runs for one to three. */
  lemma DescriptorEnd(rs: seq<real>, i: nat)
    requires RandomStream(rs) && 3 + 3 * i < |rs|
    ensures i as real * 0.5 + 1.0 <= EndTime(Descriptor(rs, i)) < i as real * 0.5 + 3.0
  {
  }

  /** A batch of three to five descriptors where descriptor `i` ends between
      `i/2 + 1` and `i/2 + 3` seconds has its total attained by one of them,
      within [2, 5). */
  lemma StaggeredTotal(anims: seq<AnimationConfig>)
    requires 3 <= |anims| <= 5
    requires forall i :: 0 <= i < |anims| ==>
      i as real * 0.5 + 1.0 <= EndTime(anims[i]) < i as real * 0.5 + 3.0
    ensures exists i :: 0 <= i < |anims| && TotalDuration(anims) == EndTime(anims[i])
    ensures 2.0 <= TotalDuration(anims) < 5.0
  {
    var t := TotalDuration(anims);
    assert t >= EndTime(anims[|anims| - 1]) >= 2.0;
    var j :| 0 <= j < |anims| && t == EndTime(anims[j]);
  }

  /** For a generated batch the total is attained by some descriptor and
      lies in [2, 5): the last descriptor starts at 1 s or later, and none
      ends at 5 s or later. */
  lemma GeneratedTotalBounds(rs: seq<real>, anims: seq<AnimationConfig>)
    requires RandomStream(rs) && |rs| >= MaxDraws
    requires |anims| == Count(rs[0])
    requires forall i :: 0 <= i < |anims| ==> anims[i] == Descriptor(rs, i)
    ensures exists i :: 0 <= i < |anims| && TotalDuration(anims) == EndTime(anims[i])
    ensures 2.0 <= TotalDuration(anims) < 5.0
  {
    GeneratedEnds(rs, anims);
    StaggeredTotal(anims);
  }

  /** Every generated descriptor ends between `i/2 + 1` and `i/2 + 3` seconds. */
  lemma GeneratedEnds(rs: seq<real>, anims: seq<AnimationConfig>)
    requires RandomStream(rs) && |rs| >= MaxDraws && |anims| <= 5
    requires forall i :: 0 <= i < |anims| ==> anims[i] == Descriptor(rs, i)
    ensures forall i :: 0 <= i < |anims| ==>
      i as real * 0.5 + 1.0 <= EndTime(anims[i]) < i as real * 0.5 + 3.0
  {
    forall i | 0 <= i < |anims|
      ensures i as real * 0.5 + 1.0 <= EndTime(anims[i]) < i as real * 0.5 + 3.0
    {
      DescriptorEnd(rs, i);
    }
  }

  /** The parsed request body; `Malformed` stands for a body whose JSON
      parse or destructuring throws (for example a `null` body). A missing or
      falsy `drawingData` is `None`. */
  datatype RequestBody<D> = Malformed | Body(drawingData: Option<D>)

  datatype Payload<D> =
    | ErrorPayload(error: string)
    | SuccessPayload(success: bool, data: AnimationData<D>)

  datatype Response<D> = Response(status: int, payload: Payload<D>)

  const MissingDrawing := "Drawing data is required"
  const GenerationFailed := "Failed to generate animation"

  /** `POST /api/animate`. */
  method Post<D>(body: RequestBody<D>, rs: seq<real>) returns (resp: Response<D>)
    requires RandomStream(rs) && |rs| >= MaxDraws
    ensures body.Malformed? ==> resp == Response(500, ErrorPayload(GenerationFailed))
    ensures body.Body? && body.drawingData.None? ==> resp == Response(400, ErrorPayload(MissingDrawing))
    ensures body.Body? && body.drawingData.Some? ==>
      && resp.status == 200
      && resp.payload.SuccessPayload? && resp.payload.success
      && resp.payload.data.drawingData == body.drawingData.value
      && |resp.payload.data.animations| == Count(rs[0])
      && 3 <= |resp.payload.data.animations| <= 5
      && (forall i :: 0 <= i < |resp.payload.data.animations| ==>
            resp.payload.data.animations[i] == Descriptor(rs, i))
      && (forall i :: 0 <= i < |resp.payload.data.animations| ==>
            EndTime(resp.payload.data.animations[i]) <= resp.payload.data.totalDuration)
      && resp.payload.data.totalDuration == TotalDuration(resp.payload.data.animations)
      && 2.0 <= resp.payload.data.totalDuration < 5.0
  {
    match body
    case Malformed =>
      resp := Response(500, ErrorPayload(GenerationFailed));
    case Body(None) =>
      resp := Response(400, ErrorPayload(MissingDrawing));
    case Body(Some(d)) =>
      var anims := GenerateAnimations(rs);
      GeneratedTotalBounds(rs, anims);
      resp := Response(200, SuccessPayload(true, AnimationData(d, anims, TotalDuration(anims))));
  }
}

=== FILE: animation_preview.dfy ===
/** The playback driver: turns a plan into tween records on a pool of
    placeholder elements, keeps the `isPlaying` flag and the single timeline,
    and requests plans from the animation endpoint.

    The tweening library is not modelled: a timeline is the list of tween
    records handed to it plus its status. `Math.random()` is an injected
    stream of reals in [0, 1); each `move` descriptor reads two of them. */
module AnimationPreview {
  import opened Types
  import Store
  import AnimateRoute

  /** The number of `.animated-element` placeholders the preview renders. */
  const PoolSize: nat := 9

  const BounceEase := "bounce.out"

  /** The tween variables set on top of `duration` and `ease`; `None` is a
      property that is not set. */
  datatype Props = Props(
    x: Option<real>,
    y: Option<real>,
    rotation: Option<real>,
    scale: Option<real>,
    opacity: Option<real>,
    yoyo: Option<bool>,
    repeat: Option<int>)

  const NoProps := Props(None, None, None, None, None, None, None)

  /** One `timeline.to(element, vars, position)` call. */
  datatype Tween = Tween(target: nat, duration: real, ease: string, props: Props, position: real)

  /** The number of `move` descriptors, each of which reads two random draws. */
  function MoveCount(anims: seq<AnimationConfig>): nat
    decreases |anims|
  {
    if anims == [] then 0 else (if anims[0].kind == Move then 1 else 0) + MoveCount(anims[1..])
  }

  lemma {:induction false} MoveCountPrefix(anims: seq<AnimationConfig>, i: nat)
    requires i < |anims|
    ensures MoveCount(anims[..i]) + (if anims[i].kind == Move then 1 else 0) <= MoveCount(anims)
    decreases i
  {
    if i > 0 {
      MoveCountPrefix(anims[1..], i - 1);
      assert anims[1..][..i - 1] == anims[..i][1..];
    }
  }

  /** Translation for a `move` tween: `Math.random() * 200 - 100`. */
  function Offset(r: real): (v: real)
    requires IsRandom(r)
    ensures -100.0 <= v < 100.0
  {
    r * 200.0 - 100.0
  }

  /** The type-specific tween variables, as a table independent of how they
      are built. */
  ghost predicate PropsFit(kind: AnimationType, p: Props)
  {
    match kind
    case Move =>
      && p.x.Some? && -100.0 <= p.x.value < 100.0
      && p.y.Some? && -100.0 <= p.y.value < 100.0
      && p.rotation.None? && p.scale.None? && p.opacity.None? && p.yoyo.None? && p.repeat.None?
    case Rotate => p == NoProps.(rotation := Some(360.0))
    case Scale => p == NoProps.(scale := Some(1.5), yoyo := Some(true), repeat := Some(1))
    case Fade => p == NoProps.(opacity := Some(0.3), yoyo := Some(true), repeat := Some(1))
    case Bounce => p == NoProps.(y := Some(-50.0))
  }

  /** The tween descriptor number `index` must produce on a pool of `pool`
      elements: element `index mod pool`, the descriptor's duration, its
      delay or 0 as the position, its easing unless it bounces, and the
      type's properties. */
  ghost predicate TweenFits(a: AnimationConfig, index: nat, pool: nat, t: Tween)
    requires pool > 0
  {
    && t.target == index % pool
    && t.duration == a.duration
    && t.position == DelayOrZero(a.delay)
    && t.ease == (if a.kind == Bounce then BounceEase else a.easing)
    && PropsFit(a.kind, t.props)
  }

  /** The tween variables for one descriptor; a `move` descriptor reads the
      draws `rs[k]` and `rs[k + 1]`. */
  function PropsFor(kind: AnimationType, rs: seq<real>, k: nat): Props
    requires RandomStream(rs) && (kind == Move ==> k + 2 <= |rs|)
  {
    match kind
    case Move => NoProps.(x := Some(Offset(rs[k])), y := Some(Offset(rs[k + 1])))
    case Rotate => NoProps.(rotation := Some(360.0))
    case Scale => NoProps.(scale := Some(1.5), yoyo := Some(true), repeat := Some(1))
    case Fade => NoProps.(opacity := Some(0.3), yoyo := Some(true), repeat := Some(1))
    case Bounce => NoProps.(y := Some(-50.0))
  }

  /** The `forEach` body of `playAnimation` over descriptors numbered from
      `first`, with the next unread random draw at `rs[k]`: descriptor
      `first + i` goes to element `(first + i) mod pool`. With an empty pool
      `index % 0` finds no element and nothing is scheduled. */
  function BuildTweens(anims: seq<AnimationConfig>, first: nat, pool: nat, rs: seq<real>, k: nat)
    : (ts: seq<Tween>)
    requires RandomStream(rs) && k + 2 * MoveCount(anims) <= |rs|
    ensures pool == 0 ==> ts == []
    ensures pool > 0 ==> |ts| == |anims|
    decreases |anims|
  {
    if pool == 0 || anims == [] then []
    else
      var a := anims[0];
      var t := Tween(first % pool, a.duration, if a.kind == Bounce then BounceEase else a.easing,
                     PropsFor(a.kind, rs, k), DelayOrZero(a.delay));
      [t] + BuildTweens(anims[1..], first + 1, pool, rs, if a.kind == Move then k + 2 else k)
  }

  lemma MoveCountSplit(anims: seq<AnimationConfig>, i: nat)
    requires 0 < i <= |anims|
    ensures MoveCount(anims[..i]) == (if anims[0].kind == Move then 1 else 0) + MoveCount(anims[1..][..i - 1])
  {
    assert anims[1..][..i - 1] == anims[..i][1..];
  }

  /** Every scheduled tween fits its descriptor: element `(first + i) mod
      pool`, the descriptor's duration, its delay or 0 as the position, its
      easing except `bounce.out` for a bounce, and the type's properties. */
  lemma {:induction false} BuildTweensFit(anims: seq<AnimationConfig>, first: nat, pool: nat, rs: seq<real>, k: nat)
    requires RandomStream(rs) && k + 2 * MoveCount(anims) <= |rs|
    ensures var ts := BuildTweens(anims, first, pool, rs, k);
            forall i :: 0 <= i < |ts| ==> TweenFits(anims[i], first + i, pool, ts[i])
    decreases |anims|
  {
    var ts := BuildTweens(anims, first, pool, rs, k);
    if pool > 0 && anims != [] {
      var k' := if anims[0].kind == Move then k + 2 else k;
      var tail := BuildTweens(anims[1..], first + 1, pool, rs, k');
      BuildTweensFit(anims[1..], first + 1, pool, rs, k');
      assert ts == [ts[0]] + tail;
      forall i | 0 <= i < |ts|
        ensures TweenFits(anims[i], first + i, pool, ts[i])
      {
        if i > 0 {
          assert ts[i] == tail[i - 1] && anims[i] == anims[1..][i - 1];
        }
      }
    }
  }

  /** Tween `i > 0` of a batch is tween `i - 1` of the rest of the batch. */
  lemma BuildTweensShift(anims: seq<AnimationConfig>, first: nat, pool: nat, rs: seq<real>, k: nat, i: nat)
    requires RandomStream(rs) && k + 2 * MoveCount(anims) <= |rs|
    requires pool > 0 && 0 < i < |anims|
    ensures var k' := if anims[0].kind == Move then k + 2 else k;
            k' + 2 * MoveCount(anims[1..]) <= |rs|
            && BuildTweens(anims, first, pool, rs, k)[i] == BuildTweens(anims[1..], first + 1, pool, rs, k')[i - 1]
  {
  }

  /** Which draws a `move` tween reads: descriptor `i` takes the two draws
      after those of the earlier `move` descriptors. */
  lemma {:induction false} MoveDraws(anims: seq<AnimationConfig>, first: nat, pool: nat, rs: seq<real>, k: nat, i: nat)
    requires RandomStream(rs) && k + 2 * MoveCount(anims) <= |rs|
    requires pool > 0 && i < |anims| && anims[i].kind == Move
    ensures k + 2 * MoveCount(anims[..i]) + 1 < |rs|
    ensures BuildTweens(anims, first, pool, rs, k)[i].props == PropsFor(Move, rs, k + 2 * MoveCount(anims[..i]))
    decreases i
  {
    MoveCountPrefix(anims, i);
    var ts := BuildTweens(anims, first, pool, rs, k);
    if i == 0 {
      assert anims[..0] == [];
      assert ts[0].props == PropsFor(Move, rs, k);
    } else {
      var k' := if anims[0].kind == Move then k + 2 else k;
      BuildTweensShift(anims, first, pool, rs, k, i);
      MoveDraws(anims[1..], first + 1, pool, rs, k', i - 1);
      MoveCountSplit(anims, i);
    }
  }

  datatype Status = Running | Finished | Killed

  /** A timeline: the tweens scheduled on it and whether it is running,
      ran to completion or was killed. */
  datatype Timeline = Timeline(tweens: seq<Tween>, status: Status)

  /** The player: `isPlaying`, the timeline reference, the timelines it has
      disposed of, and how many times element properties were reset. */
  datatype Player = Player(isPlaying: bool, timeline: Option<Timeline>, disposed: seq<Timeline>, resets: nat)

  const InitialPlayer := Player(false, None, [], 0)

  /** Enough random draws for every `move` descriptor of the plan. */
  predicate DrawsCover<D>(data: Nullable<AnimationData<D>>, rs: seq<real>)
  {
    RandomStream(rs) && (data.Truthy() ==> |rs| >= 2 * MoveCount(data.value.animations))
  }

  /** `playAnimation`: kill the old timeline, if any, and start a new one. */
  function PlayAnimation<D>(p: Player, container: bool, data: Nullable<AnimationData<D>>,
                            pool: nat, rs: seq<real>): (r: Player)
    requires DrawsCover(data, rs)
    ensures !container || !data.Truthy() ==> r == p
    ensures container && data.Truthy() ==>
      && r.isPlaying
      && r.timeline == Some(Timeline(BuildTweens(data.value.animations, 0, pool, rs, 0), Running))
      && (pool > 0 ==> |r.timeline.value.tweens| == |data.value.animations|)
      && (forall i :: 0 <= i < |r.timeline.value.tweens| ==>
            TweenFits(data.value.animations[i], i, pool, r.timeline.value.tweens[i]))
      && r.disposed == (if p.timeline.Some? then p.disposed + [p.timeline.value.(status := Killed)] else p.disposed)
      && r.resets == p.resets
  {
    if !container || !data.Truthy() then p
    else
      var disposed := if p.timeline.Some? then p.disposed + [p.timeline.value.(status := Killed)] else p.disposed;
      BuildTweensFit(data.value.animations, 0, pool, rs, 0);
      Player(true, Some(Timeline(BuildTweens(data.value.animations, 0, pool, rs, 0), Running)), disposed, p.resets)
  }

  /** `stopAnimation`: kill the timeline if there is one, reset the elements
      when the container is mounted, and clear `isPlaying` in every case. */
  function StopAnimation(p: Player, container: bool): (r: Player)
    ensures !r.isPlaying
    ensures r.disposed == p.disposed
    ensures p.timeline.None? ==> r.timeline.None? && r.resets == p.resets
    ensures p.timeline.Some? ==>
      && r.timeline == Some(p.timeline.value.(status := Killed))
      && r.resets == (if container then p.resets + 1 else p.resets)
  {
    match p.timeline
    case None => p.(isPlaying := false)
    case Some(t) =>
      p.(isPlaying := false, timeline := Some(t.(status := Killed)),
         resets := if container then p.resets + 1 else p.resets)
  }

  /** On the preview's nine placeholders a plan of at most nine descriptors,
      such as every plan the endpoint generates, puts descriptor `i` on
      element `i`: each descriptor animates an element of its own. */
  lemma NinePlaceholders<D>(p: Player, data: Nullable<AnimationData<D>>, rs: seq<real>)
    requires DrawsCover(data, rs) && data.Truthy() && |data.value.animations| <= PoolSize
    ensures var r := PlayAnimation(p, true, data, PoolSize, rs);
            && r.timeline.Some?
            && |r.timeline.value.tweens| == |data.value.animations|
            && forall i :: 0 <= i < |r.timeline.value.tweens| ==> r.timeline.value.tweens[i].target == i
  {
    var ts := PlayAnimation(p, true, data, PoolSize, rs).timeline.value.tweens;
    forall i | 0 <= i < |ts|
      ensures ts[i].target == i
    {
      assert TweenFits(data.value.animations[i], i, PoolSize, ts[i]);
    }
  }

  /** The timeline's `onComplete`: fires only for a running timeline. */
  function Complete(p: Player): (r: Player)
    ensures !(p.timeline.Some? && p.timeline.value.status.Running?) ==> r == p
    ensures p.timeline.Some? && p.timeline.value.status.Running? ==>
      && !r.isPlaying
      && r.timeline == Some(p.timeline.value.(status := Finished))
      && r.disposed == p.disposed && r.resets == p.resets
  {
    if p.timeline.Some? && p.timeline.value.status.Running? then
      p.(isPlaying := false, timeline := Some(p.timeline.value.(status := Finished)))
    else p
  }

  /** The unmount cleanup: kill the timeline if there is one. */
  function Unmount(p: Player): (r: Player)
    ensures r.timeline.None? <==> p.timeline.None?
    ensures r.timeline.Some? ==> r.timeline.value.status.Killed? && r.timeline.value.tweens == p.timeline.value.tweens
    ensures r.(timeline := p.timeline) == p
  {
    if p.timeline.Some? then p.(timeline := Some(p.timeline.value.(status := Killed))) else p
  }

  /** The Play button is disabled while playing. */
  function PressPlay<D>(p: Player, container: bool, data: Nullable<AnimationData<D>>,
                        pool: nat, rs: seq<real>): (r: Player)
    requires DrawsCover(data, rs)
    ensures p.isPlaying ==> r == p
    ensures !p.isPlaying ==> r == PlayAnimation(p, container, data, pool, rs)
  {
    if p.isPlaying then p else PlayAnimation(p, container, data, pool, rs)
  }

  /** The Stop button is disabled while not playing. */
  function PressStop(p: Player, container: bool): (r: Player)
    ensures !r.isPlaying
    ensures !p.isPlaying ==> r == p
    ensures p.isPlaying ==> r == StopAnimation(p, container)
  {
    if p.isPlaying then StopAnimation(p, container) else p
  }

  /** The player invariant: `isPlaying` holds exactly when the current
      timeline is running, and no disposed timeline is running, so at most
      one timeline ever runs. */
  ghost predicate PlayerOk(p: Player)
  {
    && (p.isPlaying <==> p.timeline.Some? && p.timeline.value.status.Running?)
    && forall i :: 0 <= i < |p.disposed| ==> !p.disposed[i].status.Running?
  }

  /** The number of running timelines the player holds. */
  function RunningCount(p: Player): nat
  {
    (if p.timeline.Some? && p.timeline.value.status.Running? then 1 else 0)
    + RunningIn(p.disposed)
  }

  function RunningIn(ts: seq<Timeline>): nat
    decreases |ts|
  {
    if ts == [] then 0 else (if ts[0].status.Running? then 1 else 0) + RunningIn(ts[1..])
  }

  lemma {:induction false} NoneRunning(ts: seq<Timeline>)
    requires forall i :: 0 <= i < |ts| ==> !ts[i].status.Running?
    ensures RunningIn(ts) == 0
    decreases |ts|
  {
    if ts != [] {
      assert !ts[0].status.Running?;
      NoneRunning(ts[1..]);
    }
  }

  /** Under the invariant at most one timeline runs, and it runs exactly
      while `isPlaying` holds. */
  lemma AtMostOneRunning(p: Player)
    requires PlayerOk(p)
    ensures RunningCount(p) <= 1
    ensures RunningCount(p) == 1 <==> p.isPlaying
  {
    NoneRunning(p.disposed);
  }

  /** The player events: play and stop requests and timeline completion. */
  datatype PlayerEvent<D> =
    | Play(container: bool, data: Nullable<AnimationData<D>>, pool: nat, rs: seq<real>)
    | Stop(container: bool)
    | Completed

  predicate EventOk<D>(e: PlayerEvent<D>)
  {
    e.Play? ==> DrawsCover(e.data, e.rs)
  }

  function PlayerStep<D>(p: Player, e: PlayerEvent<D>): Player
    requires EventOk(e)
  {
    match e
    case Play(container, data, pool, rs) => PlayAnimation(p, container, data, pool, rs)
    case Stop(container) => StopAnimation(p, container)
    case Completed => Complete(p)
  }

  function PlayerRun<D>(p: Player, es: seq<PlayerEvent<D>>): Player
    requires forall i :: 0 <= i < |es| ==> EventOk(es[i])
    decreases |es|
  {
    if es == [] then p else PlayerRun(PlayerStep(p, es[0]), es[1..])
  }

  lemma PlayerStepOk<D>(p: Player, e: PlayerEvent<D>)
    requires PlayerOk(p) && EventOk(e)
    ensures PlayerOk(PlayerStep(p, e))
  {
    var r := PlayerStep(p, e);
    if e.Play? && e.container && e.data.Truthy() && p.timeline.Some? {
      assert r.disposed == p.disposed + [p.timeline.value.(status := Killed)];
      forall i | 0 <= i < |r.disposed|
        ensures !r.disposed[i].status.Running?
      {
        if i < |p.disposed| {
          assert r.disposed[i] == p.disposed[i];
        }
      }
    }
  }

  /** Any series of play, stop and completion events keeps the invariant. */
  lemma {:induction false} PlayerRunOk<D>(p: Player, es: seq<PlayerEvent<D>>)
    requires PlayerOk(p)
    requires forall i :: 0 <= i < |es| ==> EventOk(es[i])
    ensures PlayerOk(PlayerRun(p, es))
    decreases |es|
  {
    if es != [] {
      PlayerStepOk(p, es[0]);
      PlayerRunOk(PlayerStep(p, es[0]), es[1..]);
    }
  }

  /** Stopping before anything was played changes nothing. */
  lemma StopBeforePlay(container: bool)
    ensures StopAnimation(InitialPlayer, container) == InitialPlayer
  {
  }

  /** A second press of Play right after one that started playback is ignored. */
  lemma SecondPlayIgnored<D>(p: Player, container: bool, data: Nullable<AnimationData<D>>, pool: nat,
                             rs: seq<real>, data2: Nullable<AnimationData<D>>, pool2: nat, rs2: seq<real>)
    requires DrawsCover(data, rs) && DrawsCover(data2, rs2)
    requires container && data.Truthy()
    ensures var once := PressPlay(p, container, data, pool, rs);
            PressPlay(once, container, data2, pool2, rs2) == once
  {
  }

  /** After a mode switch the store holds no plan, so Play does nothing. */
  lemma PlayAfterModeSwitch<X, D>(s: Store.State<X, AnimationData<D>>, m: DrawingMode,
                                  p: Player, container: bool, pool: nat, rs: seq<real>)
    requires RandomStream(rs)
    ensures var s2 := Store.Reduce(s, Store.SetMode(m));
            DrawsCover(s2.animationData, rs) && PlayAnimation(p, container, s2.animationData, pool, rs) == p
  {
  }

  // ---- requesting a plan ----

  /** What the request produced on the client side: `Failed` covers a
      network error, a non-OK status and an unreadable body. */
  datatype FetchOutcome<D> = Delivered(data: Nullable<AnimationData<D>>) | Failed

  /** What the transport returned for the request. */
  datatype Transport<D> = NetworkError | Received(response: AnimateRoute.Response<D>)

  /** `response.ok` and then `result.data`; a body without `data` yields
      `undefined`. */
  function Receive<D>(t: Transport<D>): (o: FetchOutcome<D>)
    ensures t.NetworkError? ==> o.Failed?
    ensures t.Received? ==> (o.Delivered? <==> 200 <= t.response.status < 300)
    ensures o.Delivered? && t.Received? && t.response.payload.SuccessPayload? ==>
      o.data == Value(t.response.payload.data)
    ensures o.Delivered? && t.Received? && t.response.payload.ErrorPayload? ==> o.data.Undefined?
  {
    match t
    case NetworkError => Failed
    case Received(resp) =>
      if !(200 <= resp.status < 300) then Failed
      else
        match resp.payload
        case SuccessPayload(_, data) => Delivered(Value(data))
        case ErrorPayload(_) => Delivered(Undefined)
  }

  /** The preview's own request state: `isLoading` and the alerts shown. */
  datatype Loader = Loader(isLoading: bool, alerts: nat)

  /** `generateAnimation` up to the `await`: a falsy canvas payload is ignored,
      otherwise the loading flag goes up. */
  function BeginGeneration<D>(l: Loader, canvasData: Option<D>): (r: Loader)
    ensures canvasData.None? ==> r == l
    ensures canvasData.Some? ==> r.isLoading && r.alerts == l.alerts
  {
    if canvasData.None? then l else l.(isLoading := true)
  }

  /** The generate button is disabled while a request is in flight, so a
      second press cannot start a second request. */
  function PressGenerate<D>(l: Loader, canvasData: Option<D>): (r: Loader)
    ensures l.isLoading ==> r == l
    ensures !l.isLoading && canvasData.Some? ==> r.isLoading && r.alerts == l.alerts
    ensures canvasData.None? ==> r == l
  {
    if l.isLoading then l else BeginGeneration(l, canvasData)
  }

  /** `generateAnimation` after the `await`: store the delivered plan, or
      alert; lower the loading flag either way. */
  function SettleGeneration<X, D>(l: Loader, s: Store.State<X, AnimationData<D>>, o: FetchOutcome<D>)
    : (r: (Loader, Store.State<X, AnimationData<D>>))
    ensures !r.0.isLoading
    ensures o.Delivered? ==> r.1 == Store.Reduce(s, Store.SetAnimationData(o.data)) && r.0.alerts == l.alerts
    ensures o.Failed? ==> r.1 == s && r.0.alerts == l.alerts + 1
  {
    match o
    case Delivered(data) => (l.(isLoading := false), Store.Reduce(s, Store.SetAnimationData(data)))
    case Failed => (Loader(false, l.alerts + 1), s)
  }

  /** The whole `generateAnimation` handler. */
  function GenerateAnimation<X, D>(l: Loader, s: Store.State<X, AnimationData<D>>,
                                   canvasData: Option<D>, o: FetchOutcome<D>)
    : (r: (Loader, Store.State<X, AnimationData<D>>))
    ensures canvasData.None? ==> r == (l, s)
    ensures canvasData.Some? ==> !r.0.isLoading
    ensures canvasData.Some? && o.Failed? ==> r.1 == s
    ensures canvasData.Some? ==> r.0.alerts == (if o.Failed? then l.alerts + 1 else l.alerts)
    ensures canvasData.Some? && o.Delivered? ==>
      r.1.animationData == o.data && r.1 == s.(animationData := o.data)
  {
    if canvasData.None? then (l, s)
    else SettleGeneration(BeginGeneration(l, canvasData), s, o)
  }

  /** Requesting a plan from the endpoint for a truthy canvas payload stores
      a plan for that payload with three to five descriptors, and leaves the
      loading flag down. */
  method GenerateThroughRoute<X, D>(l: Loader, s: Store.State<X, AnimationData<D>>,
                                    canvasData: Option<D>, rs: seq<real>)
    returns (l': Loader, s': Store.State<X, AnimationData<D>>)
    requires RandomStream(rs) && |rs| >= AnimateRoute.MaxDraws
    ensures canvasData.None? ==> l' == l && s' == s
    ensures canvasData.Some? ==>
      && !l'.isLoading && l'.alerts == l.alerts
      && s'.animationData.Truthy()
      && s'.animationData.value.drawingData == canvasData.value
      && 3 <= |s'.animationData.value.animations| <= 5
      && s' == s.(animationData := s'.animationData)
  {
    if canvasData.None? {
      l', s' := l, s;
    } else {
      var resp := AnimateRoute.Post(AnimateRoute.Body(canvasData), rs);
      var r := GenerateAnimation(l, s, canvasData, Receive(Received(resp)));
      l', s' := r.0, r.1;
    }
  }
}

=== FILE: app.dfy ===
/** The page that hosts the drawing surface, the toolbar and the preview.

    The surface exists only in draw mode: switching to animate mode unmounts
    it, losing its raster and history, and switching back mounts a fresh
    one. Pointer events reach it only while it is mounted. The toolbar shows
    Undo and Clear only in draw mode, Undo enabled only while the store's
    `canUndo` flag is set, and the "generate" button only in animate mode;
    each handler acts only when the surface is mounted. */
module App {
  import opened Types
  import DrawingCanvas
  import Store
  import AnimationPreview

  /** What the page's surroundings supply: whether the mounted canvas has a
      2D context, the raster before any fill, the fill and stroke painting of
      the graphics library, and the image encoder behind `toDataURL`. */
  datatype Env<!S, E> = Env(
    host: DrawingCanvas.Host,
    unpainted: S,
    fill: DrawingCanvas.Composite -> S,
    render: (S, DrawingCanvas.StrokeStyle, seq<DrawingCanvas.Point>) -> S,
    encode: S -> E)

  /** The mounted surface (`None` while unmounted), the store, and the
      page's `canvasData`, the payload the preview sends to the endpoint. */
  datatype AppState<S, X, A, E> = AppState(
    surface: Option<DrawingCanvas.Canvas<S>>,
    store: Store.State<X, A>,
    canvasData: Option<E>)

  datatype AppEvent<X, A> =
    | PointerDown(client: DrawingCanvas.Point, origin: DrawingCanvas.Point)
    | PointerMove(client: DrawingCanvas.Point, origin: DrawingCanvas.Point)
    | PointerUp
    | PointerLeave
    | UndoButton
    | ClearButton
    | AnimateButton
    | Ui(action: Store.Action<X, A>)

  /** The page when the application starts: draw mode with a newly mounted
      surface and no canvas payload. */
  function Start<S, X, A, E>(env: Env<S, E>): (st: AppState<S, X, A, E>)
    ensures st.store == Store.Initial() && st.canvasData.None?
    ensures st.surface == Some(DrawingCanvas.Mount(env.host, env.unpainted, env.fill))
  {
    AppState(Some(DrawingCanvas.Mount(env.host, env.unpainted, env.fill)), Store.Initial(), None)
  }

  /** The store actions the user interface dispatches: the toolbar's tool,
      colour, width and mode controls and the preview's plan updates. */
  predicate Dispatched<X, A>(a: Store.Action<X, A>)
  {
    a.SetTool? || a.SetColor? || a.SetStrokeWidth? || a.SetMode? || a.SetAnimationData?
  }

  predicate EventDispatched<X, A>(e: AppEvent<X, A>)
  {
    e.Ui? ==> Dispatched(e.action)
  }

  /** The surface after a re-render in `mode`: kept while in draw mode,
      mounted afresh on entering it, gone in animate mode. */
  function Rendered<S, E>(surface: Option<DrawingCanvas.Canvas<S>>, mode: DrawingMode, env: Env<S, E>)
    : Option<DrawingCanvas.Canvas<S>>
  {
    if mode == Animate then None
    else if surface.Some? then surface
    else Some(DrawingCanvas.Mount(env.host, env.unpainted, env.fill))
  }

  /** Delivers a surface event when the surface is mounted. */
  function OnSurface<S, X, A, E>(st: AppState<S, X, A, E>, ce: DrawingCanvas.Event, env: Env<S, E>)
    : AppState<S, X, A, E>
  {
    if st.surface.None? then st
    else st.(surface := Some(DrawingCanvas.Step(st.surface.value, ce, env.fill, env.render)))
  }

  /** One page event as the page is written. */
  function Step<S, X, A, E>(st: AppState<S, X, A, E>, e: AppEvent<X, A>, env: Env<S, E>)
    : (r: AppState<S, X, A, E>)
    ensures e.Ui? ==> r.store == Store.Reduce(st.store, e.action) && r.canvasData == st.canvasData
    ensures e.Ui? ==> (r.surface.Some? <==> r.store.mode == Draw)
    ensures e.Ui? && st.surface.Some? && r.store.mode == Draw ==> r.surface == st.surface
    ensures e.Ui? && st.surface.None? && r.store.mode == Draw ==>
      r.surface == Some(DrawingCanvas.Mount(env.host, env.unpainted, env.fill))
    ensures !e.Ui? ==> r.store == st.store && (r.surface.Some? <==> st.surface.Some?)
    ensures !e.Ui? && st.surface.None? ==> r == st
    ensures e.UndoButton? && !st.store.canUndo ==> r == st
    ensures e.AnimateButton? ==> r.surface == st.surface
    ensures !e.AnimateButton? && !e.ClearButton? ==> r.canvasData == st.canvasData
    ensures st.surface.Some? && e.PointerDown? ==>
      r.surface == Some(DrawingCanvas.StartDrawing(st.surface.value, st.store.tool, st.store.color,
                                                   st.store.strokeWidth, e.client, e.origin))
    ensures st.surface.Some? && e.PointerMove? ==>
      r.surface == Some(DrawingCanvas.Draw(st.surface.value, e.client, e.origin, env.render))
    ensures st.surface.Some? && (e.PointerUp? || e.PointerLeave?) ==>
      r.surface == Some(DrawingCanvas.StopDrawing(st.surface.value))
    ensures st.surface.Some? && e.UndoButton? && st.store.mode == Draw && st.store.canUndo ==>
      r.surface == Some(DrawingCanvas.Undo(st.surface.value))
    ensures e.ClearButton? && st.store.mode == Draw && st.surface.Some? ==>
      r.canvasData.None? && r.surface == Some(DrawingCanvas.Clear(st.surface.value, env.fill))
    ensures e.ClearButton? && !(st.store.mode == Draw && st.surface.Some?) ==> r == st
    ensures e.AnimateButton? && st.store.mode == Animate && st.surface.Some? ==>
      r.canvasData == DrawingCanvas.Export(st.surface.value, env.encode)
    ensures e.AnimateButton? && !(st.store.mode == Animate && st.surface.Some?) ==> r == st
  {
    match e
    case Ui(a) =>
      var store := Store.Reduce(st.store, a);
      st.(store := store, surface := Rendered(st.surface, store.mode, env))
    case PointerDown(client, origin) =>
      OnSurface(st, DrawingCanvas.MouseDown(st.store.tool, st.store.color, st.store.strokeWidth, client, origin), env)
    case PointerMove(client, origin) => OnSurface(st, DrawingCanvas.MouseMove(client, origin), env)
    case PointerUp => OnSurface(st, DrawingCanvas.MouseUp, env)
    case PointerLeave => OnSurface(st, DrawingCanvas.MouseLeave, env)
    case UndoButton =>
      if st.store.mode == Draw && st.store.canUndo then OnSurface(st, DrawingCanvas.UndoPressed, env) else st
    case ClearButton =>
      if st.store.mode == Draw && st.surface.Some? then OnSurface(st, DrawingCanvas.ClearPressed, env).(canvasData := None)
      else st
    case AnimateButton =>
      if st.store.mode == Animate && st.surface.Some? then
        st.(canvasData := DrawingCanvas.Export(st.surface.value, env.encode))
      else st
  }

  function Run<S, X, A, E>(st: AppState<S, X, A, E>, es: seq<AppEvent<X, A>>, env: Env<S, E>)
    : AppState<S, X, A, E>
    decreases |es|
  {
    if es == [] then st else Run(Step(st, es[0], env), es[1..], env)
  }

  /** The page invariant: the surface is mounted exactly in draw mode, and a
      mounted surface keeps its own invariant with the page's context. */
  ghost predicate PageOk<S, X, A, E>(st: AppState<S, X, A, E>, env: Env<S, E>)
  {
    && (st.surface.Some? <==> st.store.mode == Draw)
    && (st.surface.Some? ==> DrawingCanvas.Valid(st.surface.value) && st.surface.value.host == env.host)
  }

  lemma StartOk<S, X, A, E>(env: Env<S, E>)
    ensures PageOk(Start<S, X, A, E>(env), env)
  {
    DrawingCanvas.MountValid(env.host, env.unpainted, env.fill);
  }

  lemma StepOk<S, X, A, E>(st: AppState<S, X, A, E>, e: AppEvent<X, A>, env: Env<S, E>)
    requires PageOk(st, env)
    ensures PageOk(Step(st, e, env), env)
  {
    var r := Step(st, e, env);
    if e.Ui? {
      DrawingCanvas.MountValid(env.host, env.unpainted, env.fill);
    } else if st.surface.Some? {
      var c := st.surface.value;
      match e
      case PointerDown(client, origin) =>
        DrawingCanvas.StepValid(c, DrawingCanvas.MouseDown(st.store.tool, st.store.color, st.store.strokeWidth, client, origin), env.fill, env.render);
      case PointerMove(client, origin) =>
        DrawingCanvas.StepValid(c, DrawingCanvas.MouseMove(client, origin), env.fill, env.render);
      case PointerUp =>
        DrawingCanvas.StepValid(c, DrawingCanvas.MouseUp, env.fill, env.render);
      case PointerLeave =>
        DrawingCanvas.StepValid(c, DrawingCanvas.MouseLeave, env.fill, env.render);
      case UndoButton =>
        DrawingCanvas.StepValid(c, DrawingCanvas.UndoPressed, env.fill, env.render);
      case ClearButton =>
        DrawingCanvas.StepValid(c, DrawingCanvas.ClearPressed, env.fill, env.render);
      case AnimateButton =>
    }
  }

  /** Every series of page events keeps the page invariant. */
  lemma {:induction false} RunOk<S, X, A, E>(st: AppState<S, X, A, E>, es: seq<AppEvent<X, A>>, env: Env<S, E>)
    requires PageOk(st, env)
    ensures PageOk(Run(st, es, env), env)
    decreases |es|
  {
    if es != [] {
      StepOk(st, es[0], env);
      RunOk(Step(st, es[0], env), es[1..], env);
    }
  }

  /** Leaving draw mode and coming back discards the drawing: the surface
      is a newly mounted one, whatever was drawn before. */
  lemma ModeRoundTripRemounts<S, X, A, E>(st: AppState<S, X, A, E>, env: Env<S, E>)
    requires PageOk(st, env) && st.store.mode == Draw
    ensures var back := Run(st, [Ui(Store.SetMode(Animate)), Ui(Store.SetMode(Draw))], env);
            && back.store.mode == Draw
            && back.surface == Some(DrawingCanvas.Mount(env.host, env.unpainted, env.fill))
  {
    var es: seq<AppEvent<X, A>> := [Ui(Store.SetMode(Animate)), Ui(Store.SetMode(Draw))];
    var s1 := Step(st, es[0], env);
    assert s1.surface.None?;
    assert es[1..] == [es[1]] && es[1..][1..] == [];
  }

  // ---- as written: Undo is never enabled ----

  /** As written, `canUndo` starts false and no dispatched action sets it, so
      every press of Undo is ignored, whatever was drawn. */
  lemma {:induction false} UndoNeverEnabled<S, X, A, E>(
    st: AppState<S, X, A, E>, es: seq<AppEvent<X, A>>, env: Env<S, E>)
    requires !st.store.canUndo
    requires forall i :: 0 <= i < |es| ==> EventDispatched(es[i])
    ensures var r := Run(st, es, env);
            !r.store.canUndo && Step(r, UndoButton, env) == r
    decreases |es|
  {
    if es != [] {
      UndoNeverEnabled(Step(st, es[0], env), es[1..], env);
    }
  }

  /** The environment of the concrete runs: a canvas with a context whose
      fill always shows `background` and whose strokes always show `inked`. */
  function Plain<S>(unpainted: S, background: S, inked: S): (env: Env<S, int>)
    ensures env.host == DrawingCanvas.Ready
  {
    Env(DrawingCanvas.Ready, unpainted,
        (k: DrawingCanvas.Composite) => background,
        (s: S, style: DrawingCanvas.StrokeStyle, path: seq<DrawingCanvas.Point>) => inked,
        (s: S) => 0)
  }

  /** A concrete run: one stroke on a fresh page leaves two snapshots, yet
      pressing Undo leaves the stroke on the surface. */
  lemma UndoIgnoredAfterStroke<S>(unpainted: S, background: S, inked: S)
    requires inked != background
    ensures var env := Plain(unpainted, background, inked);
            var p := DrawingCanvas.Point(10.0, 10.0);
            var o := DrawingCanvas.Point(0.0, 0.0);
            var drawn := Run(Start<S, int, int, int>(env), [PointerDown(p, o), PointerMove(p, o), PointerUp], env);
            && drawn.surface.Some?
            && |drawn.surface.value.history| == 2
            && drawn.surface.value.raster == inked
            && Step(drawn, UndoButton, env).surface.value.raster == inked
  {
    var env := Plain(unpainted, background, inked);
    var st := Start<S, int, int, int>(env);
    var p := DrawingCanvas.Point(10.0, 10.0);
    var o := DrawingCanvas.Point(0.0, 0.0);
    var es: seq<AppEvent<int, int>> := [PointerDown(p, o), PointerMove(p, o), PointerUp];
    assert st.surface.value.history == [background] && !st.store.canUndo;
    var s1 := Step(st, es[0], env);
    assert s1.surface.value.drawing && s1.surface.value.history == [background] && !s1.store.canUndo;
    var s2 := Step(s1, es[1], env);
    assert s2.surface.value.raster == inked && s2.surface.value.drawing && s2.surface.value.history == [background];
    var s3 := Step(s2, es[2], env);
    assert s3.surface.value.history == [background, inked] && s3.surface.value.raster == inked;
    assert es[1..][1..] == [es[2]] && [es[2]][1..] == [];
    assert Run(s2, [es[2]], env) == s3;
    assert Run(s1, es[1..], env) == s3;
    assert Run(st, es, env) == s3;
  }

  // ---- as written: the drawing never reaches the preview ----

  /** As written, the "generate" button is shown only in animate mode, where
      the surface is unmounted, so it never exports: from a page without a
      canvas payload no series of events produces one, and the preview's
      generate button never starts a request. */
  lemma {:induction false} NoPayloadEver<S, X, A, E>(
    st: AppState<S, X, A, E>, es: seq<AppEvent<X, A>>, env: Env<S, E>, l: AnimationPreview.Loader)
    requires PageOk(st, env) && st.canvasData.None?
    ensures Run(st, es, env).canvasData.None?
    ensures AnimationPreview.PressGenerate(l, Run(st, es, env).canvasData) == l
    decreases |es|
  {
    if es != [] {
      StepOk(st, es[0], env);
      NoPayloadEver(Step(st, es[0], env), es[1..], env, l);
    }
  }

  // ---- corrected wiring ----

  /** The flag the surface should publish after each change: there is a
      snapshot to go back to. */
  function Publish<S, X, A, E>(st: AppState<S, X, A, E>): (r: AppState<S, X, A, E>)
    ensures r.surface == st.surface && r.canvasData == st.canvasData
    ensures r.store.canUndo <==> st.surface.Some? && |st.surface.value.history| >= 2
    ensures forall f :: f != Store.CanUndoF ==> Store.AgreeOn(st.store, r.store, f)
  {
    var can := st.surface.Some? && |st.surface.value.history| >= 2;
    st.(store := Store.Reduce(st.store, Store.SetCanUndo(can)))
  }

  predicate EntersAnimate<X, A>(e: AppEvent<X, A>)
  {
    e.Ui? && e.action.SetMode? && e.action.mode == Animate
  }

  /** The drawing exported as the page leaves draw mode, while the surface
      still exists. */
  function Capture<S, X, A, E>(st: AppState<S, X, A, E>, e: AppEvent<X, A>, env: Env<S, E>)
    : (r: AppState<S, X, A, E>)
    ensures r.surface == st.surface && r.store == st.store
    ensures EntersAnimate(e) && st.surface.Some? ==>
      r.canvasData == DrawingCanvas.Export(st.surface.value, env.encode)
    ensures !(EntersAnimate(e) && st.surface.Some?) ==> r == st
  {
    if EntersAnimate(e) && st.surface.Some? then
      st.(canvasData := DrawingCanvas.Export(st.surface.value, env.encode))
    else st
  }

  /** The page event with both corrections: the drawing is exported on the
      way into animate mode, and the surface publishes `canUndo` afterwards. */
  function FixedStep<S, X, A, E>(st: AppState<S, X, A, E>, e: AppEvent<X, A>, env: Env<S, E>)
    : (r: AppState<S, X, A, E>)
    ensures r.surface == Step(st, e, env).surface
    ensures r.store.canUndo <==> r.surface.Some? && |r.surface.value.history| >= 2
  {
    Publish(Step(Capture(st, e, env), e, env))
  }

  /** With the flag published, Undo is enabled exactly when the surface can
      undo, and in draw mode pressing it undoes. */
  lemma FixedUndoWorks<S, X, A, E>(st: AppState<S, X, A, E>, env: Env<S, E>)
    requires st.surface.Some?
    requires st.store.canUndo <==> |st.surface.value.history| >= 2
    requires st.store.mode == Draw
    ensures FixedStep(st, UndoButton, env).surface == Some(DrawingCanvas.Undo(st.surface.value))
  {
  }

  /** The concrete run again, with the corrected wiring: Undo brings back the
      background. */
  lemma FixedUndoAfterStroke<S>(unpainted: S, background: S, inked: S)
    ensures var env := Plain(unpainted, background, inked);
            var p := DrawingCanvas.Point(10.0, 10.0);
            var o := DrawingCanvas.Point(0.0, 0.0);
            var s1 := FixedStep(Publish(Start<S, int, int, int>(env)), PointerDown(p, o), env);
            var s2 := FixedStep(s1, PointerMove(p, o), env);
            var s3 := FixedStep(s2, PointerUp, env);
            && s3.surface.Some? && s3.surface.value.raster == inked
            && FixedStep(s3, UndoButton, env).surface.value.raster == background
  {
    var env := Plain(unpainted, background, inked);
    var st := Publish(Start<S, int, int, int>(env));
    var p := DrawingCanvas.Point(10.0, 10.0);
    var o := DrawingCanvas.Point(0.0, 0.0);
    assert st.surface.value.history == [background] && st.store.mode == Draw;
    var s1 := FixedStep(st, PointerDown(p, o), env);
    assert s1.surface.value.drawing && s1.surface.value.history == [background] && s1.store.mode == Draw;
    var s2 := FixedStep(s1, PointerMove(p, o), env);
    assert s2.surface.value.raster == inked && s2.surface.value.drawing && s2.surface.value.history == [background];
    var s3 := FixedStep(s2, PointerUp, env);
    assert s3.surface.value.history == [background, inked] && s3.store.canUndo && s3.store.mode == Draw;
    FixedUndoWorks(s3, env);
  }

  /** With the corrected wiring, entering animate mode from a surface with a
      context hands the preview the encoded drawing, and the preview's
      generate button then starts a request. */
  lemma FixedPayloadOnEnter<S, X, A, E>(st: AppState<S, X, A, E>, env: Env<S, E>, l: AnimationPreview.Loader)
    requires PageOk(st, env) && st.store.mode == Draw && env.host.Ready?
    requires !l.isLoading
    ensures var r := FixedStep(st, Ui(Store.SetMode(Animate)), env);
            && r.store.mode == Animate
            && r.canvasData == Some(env.encode(st.surface.value.raster))
            && AnimationPreview.PressGenerate(l, r.canvasData).isLoading
  {
  }
}

=== FILE: canvas.dfy ===
/** The raster drawing surface and its bounded undo history.

    The raster is an opaque value of type `S`: taking a snapshot of it yields
    the raster itself and restoring a snapshot makes it the raster again.
    Painting a stroke is delegated to the 2D graphics library, so it is
    passed in as a function `render`. */
module DrawingCanvas {
  import opened Types

  /** The number of snapshots the history keeps. */
  const HistoryLimit: nat := 20

  datatype Point = Point(x: real, y: real)

  /** The 2D context's `globalCompositeOperation`. */
  datatype Composite = SourceOver | DestinationOut

  /** The parts of the 2D context's state that a stroke uses. */
  datatype StrokeStyle = StrokeStyle(composite: Composite, color: string, lineWidth: int)

  /** The canvas defaults before any stroke sets them. */
  const DefaultStyle := StrokeStyle(SourceOver, "#000000", 1)

  /** Whether the canvas element is attached and whether it has a 2D context. */
  datatype Host = Detached | NoContext | Ready

  /** The surface: raster, snapshot history, the `isDrawing` flag, the
      context's stroke style and the current path. */
  datatype Canvas<S> = Canvas(
    host: Host,
    raster: S,
    history: seq<S>,
    drawing: bool,
    style: StrokeStyle,
    path: seq<Point>)

  /** The most recent `HistoryLimit` entries of a log, in order. */
  function Window<S>(log: seq<S>): seq<S>
  {
    if |log| <= HistoryLimit then log else log[|log| - HistoryLimit..]
  }

  /** The history buffer push: append, then drop the oldest entry when the
      buffer has grown past the limit. */
  function Push<S>(h: seq<S>, snap: S): (r: seq<S>)
    ensures |r| > 0 && r[|r| - 1] == snap
    ensures |h| <= HistoryLimit ==> |r| <= HistoryLimit
    ensures |h| < HistoryLimit ==> r == h + [snap]
    ensures |h| >= HistoryLimit ==> |r| == |h| && r[..|r| - 1] == h[1..]
  {
    var pushed := h + [snap];
    if |pushed| > HistoryLimit then
      assert pushed[1..] == h[1..] + [snap];
      pushed[1..]
    else pushed
  }

  /** Pushing onto the window of a log gives the window of the extended log:
      the bounded history is exactly the most recent snapshots ever taken. */
  lemma PushWindow<S>(log: seq<S>, snap: S)
    ensures Push(Window(log), snap) == Window(log + [snap])
  {
    if |log| >= HistoryLimit {
      var w := Window(log);
      assert |w| == HistoryLimit;
      assert Push(w, snap) == (w + [snap])[1..];
      assert (w + [snap])[1..] == (log + [snap])[|log| + 1 - HistoryLimit..];
    }
  }

  /** Pushes a series of snapshots in order. */
  function PushAll<S>(h: seq<S>, snaps: seq<S>): seq<S>
    decreases |snaps|
  {
    if snaps == [] then h else PushAll(Push(h, snaps[0]), snaps[1..])
  }

  lemma {:induction false} PushAllWindow<S>(log: seq<S>, snaps: seq<S>)
    ensures PushAll(Window(log), snaps) == Window(log + snaps)
    decreases |snaps|
  {
    if snaps != [] {
      PushWindow(log, snaps[0]);
      PushAllWindow(log + [snaps[0]], snaps[1..]);
      assert log + [snaps[0]] + snaps[1..] == log + snaps;
    }
  }

  /** After a clear followed by any number of saved strokes, the history is
      the last twenty of the cleared state and the saved snapshots. */
  lemma ClearThenSaves<S>(blank: S, snaps: seq<S>)
    ensures PushAll([blank], snaps) == Window([blank] + snaps)
    ensures |PushAll([blank], snaps)| == if |snaps| < HistoryLimit then |snaps| + 1 else HistoryLimit
  {
    assert Window([blank]) == [blank];
    PushAllWindow([blank], snaps);
  }

  /** `saveState`: snapshot the raster onto the history (only with a context). */
  function SaveState<S>(c: Canvas<S>): (r: Canvas<S>)
    ensures r.raster == c.raster && r.drawing == c.drawing && r.path == c.path && r.style == c.style && r.host == c.host
    ensures c.host.Ready? ==> r.history == Push(c.history, c.raster)
    ensures !c.host.Ready? ==> r == c
  {
    if c.host.Ready? then c.(history := Push(c.history, c.raster)) else c
  }

  /** The mounted surface: with a context it is filled with the background
      under the fresh context's compositing mode, and that one snapshot is
      recorded. `fill(k)` is the raster a full-size white `fillRect` leaves
      when composited with mode `k`. */
  function Mount<S>(host: Host, unpainted: S, fill: Composite -> S): (r: Canvas<S>)
    ensures host.Ready? ==> r.raster == fill(SourceOver) && r.history == [fill(SourceOver)]
    ensures !host.Ready? ==> r.raster == unpainted && r.history == []
    ensures !r.drawing && r.path == [] && r.style == DefaultStyle && r.host == host
  {
    var c := Canvas(host, unpainted, [], false, DefaultStyle, []);
    if host.Ready? then SaveState(c.(raster := fill(c.style.composite))) else c
  }

  /** Canvas-local coordinate of a pointer position. */
  function Local(client: Point, origin: Point): Point
  {
    Point(client.x - origin.x, client.y - origin.y)
  }

  /** The context style a new stroke uses. The eraser switches to
      destination-out at double width and keeps whatever colour the context
      already had; every other tool paints source-over in the chosen colour. */
  function StyleFor(tool: DrawingTool, color: string, width: int, prev: StrokeStyle): (st: StrokeStyle)
    ensures st.composite == DestinationOut <==> tool == Eraser
    ensures tool == Eraser ==> st.lineWidth == 2 * width && st.color == prev.color
    ensures tool != Eraser ==> st.lineWidth == width && st.color == color
  {
    if tool == Eraser then prev.(composite := DestinationOut, lineWidth := width * 2)
    else StrokeStyle(SourceOver, color, width)
  }

  /** The eraser's style does not depend on the selected colour. */
  lemma EraserIgnoresColor(c1: string, c2: string, width: int, prev: StrokeStyle)
    ensures StyleFor(Eraser, c1, width, prev) == StyleFor(Eraser, c2, width, prev)
  {
  }

  /** `startDrawing` (mouse down). */
  function StartDrawing<S>(c: Canvas<S>, tool: DrawingTool, color: string, width: int,
                           client: Point, origin: Point): (r: Canvas<S>)
    ensures c.host.Detached? ==> r == c
    ensures !c.host.Detached? ==> r.drawing
    ensures r.raster == c.raster && r.history == c.history && r.host == c.host
    ensures c.host.Ready? ==> r.path == [Local(client, origin)] && r.style == StyleFor(tool, color, width, c.style)
    ensures c.host.NoContext? ==> r.path == c.path && r.style == c.style
  {
    match c.host
    case Detached => c
    case NoContext => c.(drawing := true)
    case Ready =>
      c.(drawing := true, path := [Local(client, origin)], style := StyleFor(tool, color, width, c.style))
  }

  /** `draw` (mouse move): extend the path and stroke it at once. */
  function Draw<S>(c: Canvas<S>, client: Point, origin: Point,
                   render: (S, StrokeStyle, seq<Point>) -> S): (r: Canvas<S>)
    ensures !c.drawing || !c.host.Ready? ==> r == c
    ensures c.drawing && c.host.Ready? ==>
      && r.path == c.path + [Local(client, origin)]
      && r.raster == render(c.raster, c.style, r.path)
    ensures r.history == c.history && r.drawing == c.drawing && r.style == c.style && r.host == c.host
  {
    if !c.drawing || !c.host.Ready? then c
    else
      var path := c.path + [Local(client, origin)];
      c.(path := path, raster := render(c.raster, c.style, path))
  }

  /** `stopDrawing` (mouse up or leave). */
  function StopDrawing<S>(c: Canvas<S>): (r: Canvas<S>)
    ensures !c.drawing ==> r == c
    ensures c.drawing ==> !r.drawing && r.raster == c.raster
    ensures c.drawing ==> r.host == c.host && r.path == c.path && r.style == c.style
    ensures c.drawing && c.host.Ready? ==> r.history == Push(c.history, c.raster)
    ensures c.drawing && !c.host.Ready? ==> r.history == c.history
  {
    if c.drawing then SaveState(c.(drawing := false)) else c
  }

  /** `clearCanvas`: fill with the background and restart the history. The
      fill is composited with whatever mode the last stroke left on the
      context, so after an eraser stroke it erases instead of painting. */
  function Clear<S>(c: Canvas<S>, fill: Composite -> S): (r: Canvas<S>)
    ensures !c.host.Ready? ==> r == c
    ensures c.host.Ready? ==> r.raster == fill(c.style.composite) && r.history == [r.raster]
    ensures r.drawing == c.drawing && r.path == c.path && r.style == c.style && r.host == c.host
  {
    if !c.host.Ready? then c
    else SaveState(c.(raster := fill(c.style.composite), history := []))
  }

  /** `undo`: drop the newest snapshot and restore the one before it. The
      history is popped before the canvas is looked up, so without a context
      the pop still happens but nothing is restored. */
  function Undo<S>(c: Canvas<S>): (r: Canvas<S>)
    ensures |c.history| <= 1 ==> r == c
    ensures |c.history| >= 2 ==>
      && r.history == c.history[..|c.history| - 1]
      && (c.host.Ready? ==> r.raster == c.history[|c.history| - 2])
      && (!c.host.Ready? ==> r.raster == c.raster)
    ensures r.drawing == c.drawing && r.path == c.path && r.style == c.style && r.host == c.host
  {
    if |c.history| <= 1 then c
    else
      var h := c.history[..|c.history| - 1];
      if c.host.Ready? then c.(history := h, raster := h[|h| - 1]) else c.(history := h)
  }

  /** `exportCanvas`: the encoded raster, or nothing without a canvas. */
  function Export<S, D>(c: Canvas<S>, encode: S -> D): (r: Option<D>)
    ensures c.host.Detached? <==> r.None?
    ensures r.Some? ==> r.value == encode(c.raster)
  {
    if c.host.Detached? then None else Some(encode(c.raster))
  }

  /** `n` presses of Undo in a row. */
  function UndoN<S>(c: Canvas<S>, n: nat): Canvas<S>
  {
    if n == 0 then c else Undo(UndoN(c, n - 1))
  }

  /** Once only one snapshot is left, any number of undos changes nothing. */
  lemma {:induction false} UndoFloor<S>(c: Canvas<S>, n: nat)
    requires |c.history| == 1
    ensures UndoN(c, n) == c
  {
    if n > 0 {
      UndoFloor(c, n - 1);
    }
  }

  /** Undoing a completed stroke (with room in the history) gives back the
      raster and history from before the stroke. */
  lemma StrokeThenUndo<S>(c: Canvas<S>, tool: DrawingTool, color: string, width: int,
                          client: Point, origin: Point, moves: seq<Point>,
                          render: (S, StrokeStyle, seq<Point>) -> S)
    requires c.host.Ready? && 1 <= |c.history| < HistoryLimit
    requires c.raster == c.history[|c.history| - 1]
    ensures var after := StopDrawing(DrawAll(StartDrawing(c, tool, color, width, client, origin), moves, origin, render));
            var back := Undo(after);
            back.raster == c.raster && back.history == c.history
  {
    var s := StartDrawing(c, tool, color, width, client, origin);
    DrawAllKeepsHistory(s, moves, origin, render);
    var d := DrawAll(s, moves, origin, render);
    var after := StopDrawing(d);
    assert after.history == c.history + [d.raster];
    assert after.history[..|after.history| - 1] == c.history;
  }

  /** Clearing after a completed stroke leaves one snapshot, and what it
      shows depends on the stroke's tool: after the eraser the fill is
      composited destination-out, after any other tool source-over. */
  lemma ClearAfterStroke<S>(c: Canvas<S>, tool: DrawingTool, color: string, width: int,
                            client: Point, origin: Point, moves: seq<Point>,
                            render: (S, StrokeStyle, seq<Point>) -> S, fill: Composite -> S)
    requires c.host.Ready?
    ensures var after := StopDrawing(DrawAll(StartDrawing(c, tool, color, width, client, origin), moves, origin, render));
            var cleared := Clear(after, fill);
            && cleared.raster == fill(if tool == Eraser then DestinationOut else SourceOver)
            && cleared.history == [cleared.raster]
  {
    var s := StartDrawing(c, tool, color, width, client, origin);
    DrawAllKeepsHistory(s, moves, origin, render);
  }

  /** Feeds a series of mouse moves to `Draw`. */
  function DrawAll<S>(c: Canvas<S>, moves: seq<Point>, origin: Point,
                      render: (S, StrokeStyle, seq<Point>) -> S): Canvas<S>
    decreases |moves|
  {
    if moves == [] then c else DrawAll(Draw(c, moves[0], origin, render), moves[1..], origin, render)
  }

  lemma {:induction false} DrawAllKeepsHistory<S>(c: Canvas<S>, moves: seq<Point>, origin: Point,
                                                  render: (S, StrokeStyle, seq<Point>) -> S)
    ensures var r := DrawAll(c, moves, origin, render);
            r.history == c.history && r.drawing == c.drawing && r.host == c.host && r.style == c.style
    decreases |moves|
  {
    if moves != [] {
      DrawAllKeepsHistory(Draw(c, moves[0], origin, render), moves[1..], origin, render);
    }
  }

  /** The pointer and toolbar events the surface reacts to. */
  datatype Event =
    | MouseDown(tool: DrawingTool, color: string, width: int, client: Point, origin: Point)
    | MouseMove(client: Point, origin: Point)
    | MouseUp
    | MouseLeave
    | ClearPressed
    | UndoPressed

  function Step<S>(c: Canvas<S>, e: Event, fill: Composite -> S, render: (S, StrokeStyle, seq<Point>) -> S): Canvas<S>
  {
    match e
    case MouseDown(tool, color, width, client, origin) => StartDrawing(c, tool, color, width, client, origin)
    case MouseMove(client, origin) => Draw(c, client, origin, render)
    case MouseUp => StopDrawing(c)
    case MouseLeave => StopDrawing(c)
    case ClearPressed => Clear(c, fill)
    case UndoPressed => Undo(c)
  }

  function Run<S>(c: Canvas<S>, es: seq<Event>, fill: Composite -> S, render: (S, StrokeStyle, seq<Point>) -> S): Canvas<S>
    decreases |es|
  {
    if es == [] then c else Run(Step(c, es[0], fill, render), es[1..], fill, render)
  }

  /** The surface invariant: the history never exceeds the limit; with a
      context it is never empty, and whenever no stroke is in progress the
      raster shows the newest snapshot. */
  ghost predicate Valid<S>(c: Canvas<S>)
  {
    && |c.history| <= HistoryLimit
    && (c.host.Ready? ==> |c.history| >= 1 && (!c.drawing ==> c.raster == c.history[|c.history| - 1]))
  }

  lemma MountValid<S>(host: Host, unpainted: S, fill: Composite -> S)
    ensures Valid(Mount(host, unpainted, fill))
  {
  }

  lemma StepValid<S>(c: Canvas<S>, e: Event, fill: Composite -> S, render: (S, StrokeStyle, seq<Point>) -> S)
    requires Valid(c)
    ensures Valid(Step(c, e, fill, render))
    ensures Step(c, e, fill, render).host == c.host
  {
  }

  /** Every event sequence keeps the surface invariant. */
  lemma {:induction false} RunValid<S>(c: Canvas<S>, es: seq<Event>, fill: Composite -> S,
                                       render: (S, StrokeStyle, seq<Point>) -> S)
    requires Valid(c)
    ensures Valid(Run(c, es, fill, render))
    decreases |es|
  {
    if es != [] {
      StepValid(c, es[0], fill, render);
      RunValid(Step(c, es[0], fill, render), es[1..], fill, render);
    }
  }
}

=== FILE: store.dfy ===
/** The UI store as a pure reducer over an immutable state record. `D` is
    the stored drawing data and `A` the stored animation plan. */
module Store {
  import opened Types

  datatype State<D, A> = State(
    tool: DrawingTool,
    color: string,
    strokeWidth: int,
    mode: DrawingMode,
    isDrawing: bool,
    drawingData: Option<D>,
    animationData: Nullable<A>,
    canUndo: bool,
    canRedo: bool)

  datatype Action<D, A> =
    | SetTool(tool: DrawingTool)
    | SetColor(color: string)
    | SetStrokeWidth(width: int)
    | SetMode(mode: DrawingMode)
    | SetIsDrawing(isDrawing: bool)
    | SetDrawingData(drawingData: Option<D>)
    | SetAnimationData(animationData: Nullable<A>)
    | SetCanUndo(canUndo: bool)
    | SetCanRedo(canRedo: bool)
    | ClearCanvas

  /** The names of the state's fields. */
  datatype Field = ToolF | ColorF | StrokeWidthF | ModeF | IsDrawingF
                 | DrawingDataF | AnimationDataF | CanUndoF | CanRedoF

  /** Two states hold the same value in field `f`. */
  ghost predicate AgreeOn<D, A>(s: State<D, A>, t: State<D, A>, f: Field)
  {
    match f
    case ToolF => s.tool == t.tool
    case ColorF => s.color == t.color
    case StrokeWidthF => s.strokeWidth == t.strokeWidth
    case ModeF => s.mode == t.mode
    case IsDrawingF => s.isDrawing == t.isDrawing
    case DrawingDataF => s.drawingData == t.drawingData
    case AnimationDataF => s.animationData == t.animationData
    case CanUndoF => s.canUndo == t.canUndo
    case CanRedoF => s.canRedo == t.canRedo
  }

  /** The fields each action writes, read off the objects the store merges in. */
  function Writes<D, A>(a: Action<D, A>): set<Field>
  {
    match a
    case SetTool(_) => {ToolF}
    case SetColor(_) => {ColorF}
    case SetStrokeWidth(_) => {StrokeWidthF}
    case SetMode(_) => {ModeF, AnimationDataF}
    case SetIsDrawing(_) => {IsDrawingF}
    case SetDrawingData(_) => {DrawingDataF}
    case SetAnimationData(_) => {AnimationDataF}
    case SetCanUndo(_) => {CanUndoF}
    case SetCanRedo(_) => {CanRedoF}
    case ClearCanvas => {DrawingDataF, AnimationDataF, CanUndoF, CanRedoF}
  }

  /** The store's state when the application starts. */
  function Initial<D, A>(): (s: State<D, A>)
    ensures s.tool == Pencil && s.color == "#000000" && s.strokeWidth == 5 && s.mode == Draw
    ensures !s.isDrawing && s.drawingData.None? && s.animationData.Null?
    ensures !s.canUndo && !s.canRedo
  {
    State(Pencil, "#000000", 5, Draw, false, None, Null, false, false)
  }

  /** One store action. Every action merges a fixed set of fields into the
      state; the rest are left as they were. */
  function Reduce<D, A>(s: State<D, A>, a: Action<D, A>): (r: State<D, A>)
    ensures forall f :: f !in Writes(a) ==> AgreeOn(s, r, f)
    ensures a.SetTool? ==> r.tool == a.tool
    ensures a.SetColor? ==> r.color == a.color
    ensures a.SetStrokeWidth? ==> r.strokeWidth == a.width
    ensures a.SetMode? ==> r.mode == a.mode && !r.animationData.Truthy()
    ensures a.SetMode? ==> (r.animationData.Null? <==> a.mode == Draw)
    ensures a.SetIsDrawing? ==> r.isDrawing == a.isDrawing
    ensures a.SetDrawingData? ==> r.drawingData == a.drawingData
    ensures a.SetAnimationData? ==> r.animationData == a.animationData
    ensures a.SetCanUndo? ==> r.canUndo == a.canUndo
    ensures a.SetCanRedo? ==> r.canRedo == a.canRedo
    ensures a.ClearCanvas? ==>
      r.drawingData.None? && r.animationData.Null? && !r.canUndo && !r.canRedo
  {
    match a
    case SetTool(t) => s.(tool := t)
    case SetColor(c) => s.(color := c)
    case SetStrokeWidth(w) => s.(strokeWidth := w)
    case SetMode(m) => s.(mode := m, animationData := if m == Draw then Null else Undefined)
    case SetIsDrawing(b) => s.(isDrawing := b)
    case SetDrawingData(d) => s.(drawingData := d)
    case SetAnimationData(d) => s.(animationData := d)
    case SetCanUndo(b) => s.(canUndo := b)
    case SetCanRedo(b) => s.(canRedo := b)
    case ClearCanvas => s.(drawingData := None, animationData := Null, canUndo := false, canRedo := false)
  }

  /** Every action is a "set": doing it twice is the same as doing it once. */
  lemma ReduceIdempotent<D, A>(s: State<D, A>, a: Action<D, A>)
    ensures Reduce(Reduce(s, a), a) == Reduce(s, a)
  {
  }

  /** What an action writes does not depend on the state it is applied to.
      (This and the two agreement lemmas below are bookkeeping steps for
      `DisjointCommute`.) */
  lemma WrittenValuesIndependent<D, A>(s: State<D, A>, t: State<D, A>, a: Action<D, A>, f: Field)
    requires f in Writes(a)
    ensures AgreeOn(Reduce(s, a), Reduce(t, a), f)
  {
  }

  /** States agreeing on every field are equal. */
  lemma Extensional<D, A>(s: State<D, A>, t: State<D, A>)
    requires forall f :: AgreeOn(s, t, f)
    ensures s == t
  {
    assert AgreeOn(s, t, ToolF) && AgreeOn(s, t, ColorF) && AgreeOn(s, t, StrokeWidthF);
    assert AgreeOn(s, t, ModeF) && AgreeOn(s, t, IsDrawingF) && AgreeOn(s, t, DrawingDataF);
    assert AgreeOn(s, t, AnimationDataF) && AgreeOn(s, t, CanUndoF) && AgreeOn(s, t, CanRedoF);
  }

  /** Agreement on a field is shared by any two states that agree with a third. */
  lemma AgreeVia<D, A>(s: State<D, A>, t: State<D, A>, u: State<D, A>, f: Field)
    requires AgreeOn(s, t, f) && AgreeOn(s, u, f)
    ensures AgreeOn(t, u, f)
  {
  }

  /** Agreement carried along two chains of states from a common start. */
  lemma AgreeChain<D, A>(s: State<D, A>, sa: State<D, A>, ab: State<D, A>,
                         sb: State<D, A>, ba: State<D, A>, f: Field)
    requires AgreeOn(s, sa, f) && AgreeOn(sa, ab, f)
    requires AgreeOn(s, sb, f) && AgreeOn(sb, ba, f)
    ensures AgreeOn(ab, ba, f)
  {
  }

  /** A field only `a` writes ends with `a`'s value in either order. */
  lemma CommuteWritten<D, A>(s: State<D, A>, a: Action<D, A>, b: Action<D, A>, f: Field)
    requires f in Writes(a) && f !in Writes(b)
    ensures AgreeOn(Reduce(Reduce(s, a), b), Reduce(Reduce(s, b), a), f)
  {
    var sa, sb := Reduce(s, a), Reduce(s, b);
    assert AgreeOn(sa, Reduce(sa, b), f);
    WrittenValuesIndependent(s, sb, a, f);
    AgreeVia(sa, Reduce(sa, b), Reduce(sb, a), f);
  }

  /** A field neither action writes keeps its original value in either order. */
  lemma CommuteUntouched<D, A>(s: State<D, A>, a: Action<D, A>, b: Action<D, A>, f: Field)
    requires f !in Writes(a) && f !in Writes(b)
    ensures AgreeOn(Reduce(Reduce(s, a), b), Reduce(Reduce(s, b), a), f)
  {
    var sa, sb := Reduce(s, a), Reduce(s, b);
    var ab, ba := Reduce(sa, b), Reduce(sb, a);
    assert AgreeOn(s, sa, f) && AgreeOn(sa, ab, f);
    assert AgreeOn(s, sb, f) && AgreeOn(sb, ba, f);
    AgreeChain(s, sa, ab, sb, ba, f);
  }

  /** Actions that write disjoint fields commute. */
  lemma DisjointCommute<D, A>(s: State<D, A>, a: Action<D, A>, b: Action<D, A>)
    requires Writes(a) !! Writes(b)
    ensures Reduce(Reduce(s, a), b) == Reduce(Reduce(s, b), a)
  {
    forall f: Field
      ensures AgreeOn(Reduce(Reduce(s, a), b), Reduce(Reduce(s, b), a), f)
    {
      if f in Writes(a) {
        CommuteWritten(s, a, b, f);
      } else if f in Writes(b) {
        CommuteWritten(s, b, a, f);
        AgreeVia(Reduce(Reduce(s, b), a), Reduce(Reduce(s, b), a), Reduce(Reduce(s, a), b), f);
      } else {
        CommuteUntouched(s, a, b, f);
      }
    }
    Extensional(Reduce(Reduce(s, a), b), Reduce(Reduce(s, b), a));
  }

  /** Clearing the canvas from the initial state leaves the initial state. */
  lemma ClearInitial<D, A>()
    ensures Reduce(Initial<D, A>(), ClearCanvas) == Initial<D, A>()
  {
  }

  /** A mode switch leaves no plan, whatever the state it starts from, and
      switching into animate mode leaves `undefined` rather than `null`. */
  lemma ModeSwitchDropsPlan<D, A>(s: State<D, A>, m: DrawingMode)
    ensures !Reduce(s, SetMode(m)).animationData.Truthy()
    ensures m == Animate ==> Reduce(s, SetMode(m)).animationData.Undefined?
  {
  }

  function ReduceAll<D, A>(s: State<D, A>, actions: seq<Action<D, A>>): State<D, A>
    decreases |actions|
  {
    if actions == [] then s else ReduceAll(Reduce(s, actions[0]), actions[1..])
  }

  /** Only `SetAnimationData` can bring a plan into the store: if no action in
      a series does so, a state without a plan still has none afterwards. */
  lemma {:induction false} PlanOnlyFromSetAnimationData<D, A>(s: State<D, A>, actions: seq<Action<D, A>>)
    requires !s.animationData.Truthy()
    requires forall i :: 0 <= i < |actions| ==> !actions[i].SetAnimationData?
    ensures !ReduceAll(s, actions).animationData.Truthy()
    decreases |actions|
  {
    if actions != [] {
      PlanOnlyFromSetAnimationData(Reduce(s, actions[0]), actions[1..]);
    }
  }
}

=== FILE: types.dfy ===
/** Shared vocabulary of the drawing application: the optional and nullable
    wrappers that stand in for JavaScript's `undefined`/`null`, the drawing tools
    and modes, and the animation descriptor and plan records. */
module Types {

  /** A value that may be absent (a missing property or a falsy payload). */
  datatype Option<+T> = None | Some(value: T)

  /** A JavaScript slot that can hold `null`, `undefined` or a value; both
      `null` and `undefined` are falsy. */
  datatype Nullable<+T> = Null | Undefined | Value(value: T) {
    predicate Truthy() { Value? }
  }

  datatype DrawingTool = Pencil | Eraser | Circle | Rectangle | Line

  datatype DrawingMode = Draw | Animate

  datatype AnimationType = Move | Rotate | Scale | Fade | Bounce

  /** One animation descriptor; `delay` is an optional property. */
  datatype AnimationConfig = AnimationConfig(
    duration: real,
    kind: AnimationType,
    easing: string,
    delay: Option<real>)

  /** An animation plan: the opaque drawing it was generated for, its
      descriptors, and the derived total duration. */
  datatype AnimationData<D> = AnimationData(
    drawingData: D,
    animations: seq<AnimationConfig>,
    totalDuration: real)

  /** `delay || 0`: an absent delay counts as zero. */
  function DelayOrZero(d: Option<real>): real
  {
    match d
    case None => 0.0
    case Some(v) => v
  }

  /** The time at which a descriptor's tween ends on the timeline. */
  function EndTime(a: AnimationConfig): real
  {
    DelayOrZero(a.delay) + a.duration
  }

  /** A draw of `Math.random()`: a real in [0, 1). */
  predicate IsRandom(r: real)
  {
    0.0 <= r < 1.0
  }

  /** Every element of an injected random stream is a valid draw. */
  predicate RandomStream(rs: seq<real>)
  {
    forall i :: 0 <= i < |rs| ==> IsRandom(rs[i])
  }
}
